=== FILE: README.md ===
# Canvas QR generator: roster extraction, grid cursor and file name

This is a Dafny model of the logic of the Canvas QR code bookmarklet
(`canvas-qr-script.js`). The bookmarklet scrapes a Canvas course roster page
for students. It then lays out one QR code per student in a two-column,
six-row grid across the pages of a PDF, and saves the PDF under a name
derived from the page title. The model covers three parts:

- **Roster extraction** (`extractStudents`), in modules `Roster`, `NameSort` and `Extract`.
  - The page is the answer of `querySelectorAll` for each of the six
    selectors, in the script's order. The first selector that matches
    anything is the only one used.
  - Each matched element gives a trimmed name and the numeric user id that
    `users\/(\d+)` captures from its link.
  - Elements are filtered: a non-empty name of 3 to 99 UTF-16 code units,
    not mentioning "test user", and a non-empty id. An element is also
    dropped if its id was already collected.
  - The kept records are de-duplicated once more by `findIndex`, then
    stably sorted by name.
- **Grid cursor** of `generateQRPDF`, in module `Grid`.
  - The row/column/page cursor is a fold over the record count, with the
    grid size as a parameter; the script's grid is 2 × 6.
  - The closed form gives the cell of the `i`-th record.
  - The cursor adds a page every time it wraps, including after the last
    record.
- **File name**, in module `FileName`.
  - The course name is the title's part before the first " - ". If that is
    empty, it is the part before the first ":", and "Course" if that is
    empty too.
  - The course name is reduced to letters, digits and single underscores.
  - Then comes `_QR_Codes_<date>.pdf`.

Shared string machinery lives in module `Text`:
- the ECMAScript white-space set;
- `trim`;
- ASCII lower-casing;
- `includes`;
- the UTF-16 `length`;
- the order used for sorting.

One might expect `ceil(N / 12)` pages for `N` records. The code calls
`addPage` as soon as the cursor wraps past the last row, even after the
last record, so `N` records produce `1 + N div 12` pages:
- `Grid.PageCount` gives this count;
- `Grid.LastPageEmpty` proves that the last page is blank exactly when `N`
  is a multiple of 12 (zero included).

The first selector's elements decide the roster; later selectors never
contribute (`Extract.FirstMatchWins`). The filtering pass already keeps one
record per id, so the second de-duplication changes nothing
(`Extract.SecondPassIsIdentity`).

In module `Roster`, some functions follow the code as written and carry no
contract of their own. Lemmas tie each one to a definition stated
independently:
- `Roster.FirstMatch` is the selector loop with its `break` (lines 83-107).
  `Roster.FirstMatchFrom` characterises it.
- `Roster.Admissible` and `Roster.Accepted` are the name/id test of lines
  95-96 without the duplicate check. `Roster.Scan` and
  `Roster.AcceptedRecordWellFormed` state what passing it means.
- `Roster.DisplayText` and `Roster.RecordOf` build the pushed record
  (lines 98-102). `Roster.WellFormed` is the shape every kept record has.
- `Roster.Collect` is the `forEach` with its `find` check (lines 88-104).
  `Roster.Kept` is the reference definition: the records of the candidates
  that are admissible and first of their id, in element order.
  `Roster.CollectIsKept` equates the two.
- `Roster.UniqueFrom` is the `filter`/`findIndex` callback applied from an
  index on (lines 110-111). `Roster.UniqueFromMembers` and
  `Roster.UniqueFromDistinctIds` state what it keeps, and
  `Roster.UniqueFromOrdered` that it keeps input order.

## Model

| member | source | states |
|---|---|---|
| Extract.ExtractStudents | canvas-qr-script.js:65-116 | the roster has pairwise distinct ids, is sorted by name, holds exactly the records the filtering pass over the first matching selector keeps, and lists the records of any one name in the order the pass found them |
| Extract.RosterWellFormed | canvas-qr-script.js:89-101 | every roster record has a trimmed name of 3 to 99 UTF-16 code units that does not contain "test user" once lower-cased, a non-empty all-digit id, and display text `name (id)` |
| Extract.SecondPassIsIdentity | canvas-qr-script.js:97-111 | the `filter`/`findIndex` de-duplication leaves the filtering pass's output unchanged |
| Extract.RosterMembers | canvas-qr-script.js:83-104 | a record is on the roster exactly when it is the record of a matched element that passes the filter and is the first such element with its id |
| Extract.FirstMatchWins | canvas-qr-script.js:83-106 | if selector k is the first to match, the roster depends only on selectors 0..k: two pages that agree on them give the same roster |
| Extract.EmptyRoster | canvas-qr-script.js:83-107 | the roster is empty exactly when no element of the first matching selector passes the filter; in particular it is empty when no selector matches |
| Roster.FirstMatchFrom | canvas-qr-script.js:83-107 | the result is empty exactly when every selector from k on matches nothing; otherwise it is the answer of the first selector from k on that matches something; `Roster.FirstMatch` is the loop from selector 0 |
| Roster.FirstUserIdFrom | canvas-qr-script.js:91 | the leftmost index at or after p where `users/` is followed by a digit, or -1 exactly when there is none |
| Roster.CaptureAt | canvas-qr-script.js:91-92 | at a match position the captured group is a non-empty run of digits right after `users/` that the next character does not extend |
| Roster.DigitRunMaximal | canvas-qr-script.js:91 | any run of digits at an index that the next character does not extend has the length the greedy `\d+` takes |
| Roster.CaptureUnique | canvas-qr-script.js:91 | two captures at the same position are equal: the greedy group is determined by where the match starts |
| Roster.MatchUserId | canvas-qr-script.js:91-92 | the id is empty exactly when no `users/` in the link is followed by a digit; otherwise it is the capture at the leftmost such `users/` |
| Roster.AcceptedRecordWellFormed | canvas-qr-script.js:89-101 | the record of an element that passes the filter is well formed, and its id is the capture at the leftmost match |
| Roster.Scan | canvas-qr-script.js:88-97 | the candidate carries the element's trimmed name and captured id, is admissible exactly when the element passes the name/id filter (`Roster.Accepted`), and its record (`Roster.RecordOf`) is then well formed |
| Roster.KeptMembers | canvas-qr-script.js:95-103 | the reference filtering pass holds exactly the records of admissible candidates that are the first admissible ones with their id |
| Roster.KeptHasId | canvas-qr-script.js:97 | the reference pass over a prefix holds an id exactly when some admissible candidate in that prefix has it |
| Roster.KeptDistinct | canvas-qr-script.js:97 | the reference pass never holds an id twice |
| Roster.KeptStep | canvas-qr-script.js:95-103 | one more candidate is pushed exactly when it is admissible and its id is not present yet |
| Roster.CollectIsKept | canvas-qr-script.js:88-104 | `Roster.Collect`, the `forEach` with its `find` check as written, computes the reference definition `Roster.Kept` |
| Roster.FilterPass | canvas-qr-script.js:88-104 | the filtering pass equals the reference pass, has distinct ids, and holds exactly the records of first-of-their-id admissible elements |
| Roster.FilterPassWellFormed | canvas-qr-script.js:89-101 | every record the filtering pass keeps is well formed |
| Roster.FilterPassEmpty | canvas-qr-script.js:95-103 | the filtering pass keeps nothing exactly when no element passes the name/id filter |
| Roster.FindIndex | canvas-qr-script.js:111 | -1 exactly when no record has the id, otherwise the first index holding it |
| Roster.UniqueFromMembers | canvas-qr-script.js:110-111 | `Roster.UniqueFrom`, the `filter` callback as written, keeps exactly the records at the first index of their id |
| Roster.UniqueFromDistinctIds | canvas-qr-script.js:110-111 | the output of `Roster.UniqueFrom` has distinct ids |
| Roster.UniqueFromOrdered | canvas-qr-script.js:110-111 | `Roster.UniqueFrom` keeps input order: the first indices of the kept records' ids strictly increase, and none lies before the start index |
| Roster.UniqueById | canvas-qr-script.js:110-111 | the de-duplicated list has distinct ids and keeps every input id; each kept record is the input record at the first index of its id, and the kept records appear in input order, which fixes the result on every input |
| Roster.UniqueByIdDistinct | canvas-qr-script.js:110-111 | on a list with distinct ids the de-duplication is the identity |
| NameSort.Insert | canvas-qr-script.js:112 | inserting adds exactly the new record (multiset) |
| NameSort.InsertSorted | canvas-qr-script.js:112 | inserting into a name-sorted list keeps it sorted |
| NameSort.InsertStable | canvas-qr-script.js:112 | inserting puts the new record before every record of equal name and keeps their order |
| NameSort.SortByName | canvas-qr-script.js:112 | the sort returns a permutation of its input |
| NameSort.SortByNameCorrect | canvas-qr-script.js:112 | the sort returns a permutation, sorted by name, keeps equal names in input order (stability), and keeps ids distinct |
| Text.Trim | canvas-qr-script.js:89 | the result is a slice of the input obtained by cutting only white space at both ends, and it neither starts nor ends with white space |
| Text.TrimmedAtIsTrim | canvas-qr-script.js:89 | a string that is the input cut of leading and trailing white space, and starts and ends with non-white space, is the trim result |
| Text.ToLower | canvas-qr-script.js:96 | lower-casing keeps the length and maps every character through the ASCII case mapping |
| Text.ContainsOccurs | canvas-qr-script.js:96 | `includes` holds exactly when the pattern occurs at some index |
| Text.Utf16Length | canvas-qr-script.js:95 | a string's JavaScript length lies between its number of code points and twice that |
| Text.Utf16LengthAppend | canvas-qr-script.js:95 | the JavaScript length of a concatenation is the sum of the parts' lengths |
| Text.Utf16LengthChar | canvas-qr-script.js:95 | one character counts two code units when it lies above U+FFFF, and one otherwise; with `Utf16LengthAppend` this fixes the length of every string |
| Text.Utf16LengthBmp | canvas-qr-script.js:95 | a string without characters above U+FFFF has as many code units as characters |
| Text.LessIrreflexive | canvas-qr-script.js:112 | no name sorts before itself |
| Text.LessTransitive | canvas-qr-script.js:112 | the name order is transitive |
| Text.LessTotal | canvas-qr-script.js:112 | any two distinct names are ordered one way or the other |
| Text.NotLessTransitive | canvas-qr-script.js:112 | "not after" is transitive, so a sorted list is ordered pairwise |
| Grid.Advance | canvas-qr-script.js:195-205 | a cursor in the grid stays in the grid after advancing, and the page count grows by at most one |
| Grid.AdvanceStep | canvas-qr-script.js:195-205 | advancing moves an in-grid cursor exactly one cell forward in page-major, row-major order |
| Grid.CursorAfter | canvas-qr-script.js:150-205 | after any number of records the cursor is in the grid |
| Grid.CursorPosition | canvas-qr-script.js:159-205 | after n records the cursor has passed exactly n cells |
| Grid.ClosedForm | canvas-qr-script.js:195-205 | after n records, col = n mod cols, row = (n div cols) mod rows, and addPage has been called n div (cols*rows) times |
| Grid.Layout | canvas-qr-script.js:150-206 | the loop places record i at page i div (cols*rows), row (i div cols) mod rows, column i mod cols, always inside the grid, and calls addPage count div (cols*rows) times |
| Grid.PageCount | canvas-qr-script.js:199-204 | the document has one page more than the number of wraps the cursor made |
| Grid.LastPageEmpty | canvas-qr-script.js:199-204 | the last page holds no record exactly when the record count is a multiple of cols*rows |
| Grid.ThirteenthRecordStartsPageTwo | canvas-qr-script.js:145-146 | in the 2 × 6 grid record 11 (0-based) is the last cell of page 0 and record 12 starts page 1 at row 0, column 0 |
| FileName.SplitHead | canvas-qr-script.js:209 | `split(sep)[0]` is the longest prefix in which no occurrence of sep starts, ended by an occurrence or by the end |
| FileName.SplitHeadUnique | canvas-qr-script.js:209 | only one prefix has that property |
| FileName.CourseName | canvas-qr-script.js:209 | the course name is never empty; it is "Course" for an empty title, the part before the first " - " unless the title starts with " - ", and otherwise the part before the first ":" |
| FileName.StripDisallowed | canvas-qr-script.js:210 | only ASCII letters, digits and white space survive, and a string of those is left alone; `StripDisallowedAppend` and `StripDisallowedChar` fix which characters survive and where |
| FileName.CollapseWhitespace | canvas-qr-script.js:210 | the result has no white space; a leading white-space run becomes one `_` and any other leading character is kept; without `_` in the input there is no `__` in the result; `CollapseAppend` and `CollapseRun` fix where each `_` goes |
| FileName.StripDisallowedAppend | canvas-qr-script.js:210 | removal acts on each character on its own: stripping a concatenation is the concatenation of the stripped parts |
| FileName.StripDisallowedChar | canvas-qr-script.js:210 | a single ASCII letter, digit or white-space character is kept as it is, and any other character is removed |
| FileName.CollapseAppend | canvas-qr-script.js:210 | runs never merge across a point that follows a character other than white space, so collapsing there is collapsing the two sides |
| FileName.CollapseRun | canvas-qr-script.js:210 | a maximal white-space run anywhere in the string becomes exactly one `_` between the collapsed text before it and the collapsed text after it |
| FileName.CleanName | canvas-qr-script.js:210 | the cleaned name holds only ASCII letters, digits and `_`, and never two `_` in a row |
| FileName.StripThenDropWhitespace | canvas-qr-script.js:210 | removing disallowed characters and then white space leaves exactly the ASCII letters and digits |
| FileName.CollapseThenDropUnderscores | canvas-qr-script.js:210 | on input without `_`, collapsing white space and then removing `_` equals removing white space |
| FileName.CleanNameKeepsAlnum | canvas-qr-script.js:210 | removing the underscores from the cleaned name gives exactly the ASCII letters and digits of the course name, in order |
| FileName.CleanNameOfWords | canvas-qr-script.js:210 | for words of letters and digits separated by single spaces, cleaning replaces each space by `_` |
| FileName.PdfFileName | canvas-qr-script.js:211 | the file name ends with `_QR_Codes_<date>.pdf`, and what precedes that suffix holds only ASCII letters, digits and `_`, never two `_` in a row |
| FileName.BiologyExample | canvas-qr-script.js:209-211 | the title "Biology 101 - Spring" on 2024-03-15 gives `Biology_101_QR_Codes_2024-03-15.pdf` |

## Left out

- Overlay, status messages and HTML injection (`showStatus` and the UI code): DOM output with nothing to state.
- Loading the QR and PDF libraries by script injection: asynchronous I/O.
- The calls into the QR encoder and the PDF builder (`QRCode.toCanvas`, `toDataURL`, `addImage`, `text`, `addPage`, `save`): foreign code. The model keeps only the cursor, and counts `addPage` calls as `pagesAdded`.
- The page headers and "(continued)" titles: drawing calls only.
- Pixel and millimetre coordinates (`cellWidth`, `cellHeight`, `x`, `y`, `textY`): floating point derived from the PDF page size.
- `new Date()`: the ISO date is an input string, and `toLocaleDateString` in the header is not modelled.
- The `try`/`catch` around generation, and the caller that shows an error when the roster is empty: error reporting to the user.
- `console.log` calls: logging.
- `sw.js`, the service worker: install, activate and fetch pass-through handlers around network I/O.
- `el.href` URL resolution by the browser: the model takes the resolved link as its input string.
- Text.Less: stands in for `localeCompare` as strict lexicographic order by code point. Locale collation cannot be stated without a locale, and the model proves only what a total order gives: sortedness, permutation and stability.
- Text.ToLower: maps ASCII `A`..`Z` only. Full Unicode lower-casing is not modelled. No other character lower-cases to anything containing the letters or the space of "test user", so the containment test decides the same.
- Text.IsWhitespace: is the ECMAScript white-space and line-terminator set at the level of code points. Unpaired surrogates cannot occur in a Dafny string.

=== FILE: extract.dfy ===
/**
  `extractStudents` end to end: first matching selector, per-element scan,
  filtering pass, second de-duplication by id, stable sort by name.
 */
module Extract {
  import opened Text
  import opened Roster
  import opened NameSort

  /** The roster the script shows and lays out, for the page snapshot `doc`. */
  function ExtractStudents(doc: Document): (r: seq<Student>)
    ensures DistinctIds(r)
    ensures SortedByName(r)
    ensures forall x :: x in r <==> x in FilterPass(FirstMatch(doc))
    ensures forall n :: WithName(r, n) == WithName(FilterPass(FirstMatch(doc)), n)
  {
    var students := FilterPass(FirstMatch(doc));
    FilterPassWellFormed(FirstMatch(doc));
    UniqueByIdDistinct(students);
    SortByNameCorrect(students);
    var r := SortByName(UniqueById(students));
    assert forall x :: x in r <==> x in multiset(students);
    r
  }

  /** Every record on the roster has a trimmed name of 3 to 99 UTF-16 code
      units that does not mention "test user", a non-empty all-digit id and
      the display text "name (id)". */
  lemma RosterWellFormed(doc: Document)
    ensures forall k :: 0 <= k < |ExtractStudents(doc)| ==> WellFormed(ExtractStudents(doc)[k])
  {
    var r := ExtractStudents(doc);
    FilterPassWellFormed(FirstMatch(doc));
    forall k | 0 <= k < |r|
      ensures WellFormed(r[k])
    {
      assert r[k] in r;
    }
  }

  /** The filtering pass already leaves one record per id, so the second
      de-duplication changes nothing. */
  lemma SecondPassIsIdentity(els: seq<Element>)
    ensures UniqueById(FilterPass(els)) == FilterPass(els)
  {
    UniqueByIdDistinct(FilterPass(els));
  }

  /** A record is on the roster exactly when it is the record of an element
      of the first matching selector that passes the filter and is the
      first such element with its id. */
  lemma RosterMembers(doc: Document, x: Student)
    ensures x in ExtractStudents(doc) <==>
      exists k :: FirstOfItsId(ScanAll(FirstMatch(doc)), k) && x == RecordOf(FirstMatch(doc)[k])
  {
  }

  /** Only the first selector that matches anything matters: two snapshots
      that agree on it and on every selector before it give the same roster,
      whatever later selectors would match. */
  lemma FirstMatchWins(doc1: Document, doc2: Document, k: nat)
    requires k < |Selectors|
    requires doc1(Selectors[k]) != []
    requires forall i :: 0 <= i < k ==> doc1(Selectors[i]) == []
    requires forall i :: 0 <= i <= k ==> doc1(Selectors[i]) == doc2(Selectors[i])
    ensures FirstMatch(doc1) == doc1(Selectors[k])
    ensures ExtractStudents(doc1) == ExtractStudents(doc2)
  {
    FirstMatchUpTo(doc1, doc2, k, 0);
  }

  lemma {:induction false} FirstMatchUpTo(doc1: Document, doc2: Document, k: nat, i: nat)
    requires i <= k < |Selectors|
    requires doc1(Selectors[k]) != []
    requires forall j :: 0 <= j <= k ==> doc1(Selectors[j]) == doc2(Selectors[j])
    requires forall j :: i <= j < k ==> doc1(Selectors[j]) == []
    ensures FirstMatchFrom(doc1, i) == FirstMatchFrom(doc2, i) == doc1(Selectors[k])
    decreases k - i
  {
    if i < k {
      FirstMatchUpTo(doc1, doc2, k, i + 1);
    }
  }

  /** Nothing matched, or the first selector that matched found no element
      that passes the filter: the roster is empty, and only then. */
  lemma EmptyRoster(doc: Document)
    ensures ExtractStudents(doc) == [] <==> forall k :: 0 <= k < |FirstMatch(doc)| ==> !Accepted(FirstMatch(doc)[k])
    ensures (forall k :: 0 <= k < |Selectors| ==> doc(Selectors[k]) == []) ==> ExtractStudents(doc) == []
  {
    var r := ExtractStudents(doc);
    FilterPassEmpty(FirstMatch(doc));
    if r != [] {
      assert r[0] in r;
    }
    if FilterPass(FirstMatch(doc)) != [] {
      assert FilterPass(FirstMatch(doc))[0] in r;
    }
  }
}

=== FILE: filename.dfy ===
/**
  The name under which the generated PDF is saved: the course part of the
  page title, reduced to ASCII letters, digits and single underscores, then
  `_QR_Codes_<date>.pdf`. The date (`toISOString` cut at `T`) is an input.
 */
module FileName {
  import opened Text

  /* ------------------------------------------------------- course name */

  /** `r` is the first piece of `s` cut at `sep`: the longest prefix of `s`
      in which no occurrence of `sep` starts, ended by an occurrence or by
      the end of `s`. */
  predicate IsSplitHead(r: string, s: string, sep: string) {
    && |r| <= |s|
    && r == s[..|r|]
    && (forall j :: 0 <= j < |r| ==> !OccursAt(s, j, sep))
    && (|r| == |s| || OccursAt(s, |r|, sep))
  }

  function SplitHeadFrom(s: string, sep: string, i: nat): (r: string)
    requires |sep| > 0 && i <= |s|
    requires forall j :: 0 <= j < i ==> !OccursAt(s, j, sep)
    ensures IsSplitHead(r, s, sep)
    decreases |s| - i
  {
    if i == |s| then s
    else if OccursAt(s, i, sep) then s[..i]
    else SplitHeadFrom(s, sep, i + 1)
  }

  /** The first piece of `s` cut at a non-empty separator. */
  function SplitHead(s: string, sep: string): (r: string)
    requires |sep| > 0
    ensures IsSplitHead(r, s, sep)
  {
    SplitHeadFrom(s, sep, 0)
  }

  /** There is only one split head. */
  lemma SplitHeadUnique(r: string, s: string, sep: string)
    requires |sep| > 0 && IsSplitHead(r, s, sep)
    ensures r == SplitHead(s, sep)
  {
    var t := SplitHead(s, sep);
    assert |r| == |t|;
  }

  /** The course part of the page title: the title up to the first " - ";
      if that piece is empty, the title up to the first ':'; if that is empty
      too, "Course". The first piece is empty only when the title starts
      with " - ", and the default is reached only for an empty title. */
  function CourseName(title: string): (r: string)
    ensures r != ""
    ensures title == "" ==> r == "Course"
    ensures title != "" && !OccursAt(title, 0, " - ") ==> IsSplitHead(r, title, " - ")
    ensures OccursAt(title, 0, " - ") ==> IsSplitHead(r, title, ":")
  {
    var byDash := SplitHead(title, " - ");
    if byDash != "" then byDash
    else
      var byColon := SplitHead(title, ":");
      assert title != "" ==> title[0] == ' ' && !OccursAt(title, 0, ":");
      if byColon != "" then byColon else "Course"
  }

  /* --------------------------------------------------------- cleaning */

  /** Characters the cleaning keeps: ASCII letters, digits and white space. */
  predicate Retained(c: char) {
    IsAsciiAlnum(c) || IsWhitespace(c)
  }

  /** Every character that is not an ASCII letter, a digit or white space
      removed; the others stay, in order. */
  function StripDisallowed(s: string): (r: string)
    ensures |r| <= |s|
    ensures forall i :: 0 <= i < |r| ==> Retained(r[i])
    ensures (forall i :: 0 <= i < |s| ==> Retained(s[i])) ==> r == s
  {
    if |s| == 0 then ""
    else (if Retained(s[0]) then [s[0]] else "") + StripDisallowed(s[1..])
  }

  /** Every maximal run of white space replaced by one underscore. */
  function CollapseWhitespace(s: string): (r: string)
    ensures forall i :: 0 <= i < |r| ==> !IsWhitespace(r[i])
    ensures (forall i :: 0 <= i < |s| ==> Retained(s[i])) ==> forall i :: 0 <= i < |r| ==> IsAsciiAlnum(r[i]) || r[i] == '_'
    ensures |s| > 0 && IsWhitespace(s[0]) ==> |r| > 0 && r[0] == '_'
    ensures |s| > 0 && !IsWhitespace(s[0]) ==> |r| > 0 && r[0] == s[0]
    ensures '_' !in s ==> NoDoubleUnderscore(r)
    decreases |s|
  {
    if |s| == 0 then ""
    else if IsWhitespace(s[0]) then
      var rest := TrimStart(s);
      assert |rest| < |s|;
      var t := CollapseWhitespace(rest);
      "_" + t
    else
      var t := CollapseWhitespace(s[1..]);
      [s[0]] + t
  }

  predicate NoDoubleUnderscore(s: string) {
    forall i :: 0 <= i < |s| - 1 ==> !(s[i] == '_' && s[i + 1] == '_')
  }

  /** The course name with the disallowed characters removed, then its
      white-space runs turned into underscores. */
  function CleanName(s: string): (r: string)
    ensures forall i :: 0 <= i < |r| ==> IsAsciiAlnum(r[i]) || r[i] == '_'
    ensures NoDoubleUnderscore(r)
  {
    var kept := StripDisallowed(s);
    assert forall i :: 0 <= i < |kept| ==> kept[i] != '_';
    CollapseWhitespace(kept)
  }

  /* ------------------------------------------ cleaning, piece by piece */

  /** Removal works one character at a time: it distributes over
      concatenation ... */
  lemma {:induction false} StripDisallowedAppend(a: string, b: string)
    ensures StripDisallowed(a + b) == StripDisallowed(a) + StripDisallowed(b)
    decreases |a|
  {
    if |a| == 0 {
      assert a + b == b;
    } else {
      assert (a + b)[1..] == a[1..] + b;
      StripDisallowedAppend(a[1..], b);
    }
  }

  /** ... and keeps a single character exactly when it is retained, so
      every retained character survives in place and every other one goes. */
  lemma StripDisallowedChar(c: char)
    ensures Retained(c) ==> StripDisallowed([c]) == [c]
    ensures !Retained(c) ==> StripDisallowed([c]) == ""
  {
    assert [c][1..] == "";
  }

  /** Dropping leading white space stops inside `a` when `a` ends with
      something else, so what follows `a` is untouched. */
  lemma {:induction false} TrimStartAppend(a: string, t: string)
    requires |a| > 0 && !IsWhitespace(a[|a| - 1])
    ensures TrimStart(a + t) == TrimStart(a) + t
    decreases |a|
  {
    if IsWhitespace(a[0]) {
      assert (a + t)[1..] == a[1..] + t;
      TrimStartAppend(a[1..], t);
    }
  }

  /** A run of white space is exactly what `TrimStart` drops in front of a
      string that does not itself start with white space. */
  lemma {:induction false} TrimStartRun(w: string, b: string)
    requires forall i :: 0 <= i < |w| ==> IsWhitespace(w[i])
    requires |b| > 0 ==> !IsWhitespace(b[0])
    ensures TrimStart(w + b) == b
    decreases |w|
  {
    if |w| == 0 {
      assert w + b == b;
    } else {
      assert (w + b)[1..] == w[1..] + b;
      TrimStartRun(w[1..], b);
    }
  }

  /** Runs never merge across a boundary that follows a character other than
      white space: collapsing the whole is collapsing the parts. */
  lemma {:induction false} CollapseAppend(a: string, t: string)
    requires |a| > 0 ==> !IsWhitespace(a[|a| - 1])
    ensures CollapseWhitespace(a + t) == CollapseWhitespace(a) + CollapseWhitespace(t)
    decreases |a|
  {
    if |a| == 0 {
      assert a + t == t;
    } else if IsWhitespace(a[0]) {
      var rest := TrimStart(a);
      assert |rest| < |a|;
      assert |rest| > 0 && rest[|rest| - 1] == a[|a| - 1];
      CollapseAppend(rest, t);
      CollapseAppendSpace(a, t);
    } else {
      CollapseAppend(a[1..], t);
      CollapseAppendOther(a, t);
    }
  }

  lemma CollapseAppendSpace(a: string, t: string)
    requires |a| > 0 && IsWhitespace(a[0]) && !IsWhitespace(a[|a| - 1])
    requires CollapseWhitespace(TrimStart(a) + t) == CollapseWhitespace(TrimStart(a)) + CollapseWhitespace(t)
    ensures CollapseWhitespace(a + t) == CollapseWhitespace(a) + CollapseWhitespace(t)
  {
    HeadOfAppend(a, t);
    TrimStartAppend(a, t);
    CollapseSpaceHead(a);
    CollapseSpaceHead(a + t);
    ConcatAssoc("_", CollapseWhitespace(TrimStart(a)), CollapseWhitespace(t));
  }

  lemma CollapseAppendOther(a: string, t: string)
    requires |a| > 0 && !IsWhitespace(a[0])
    requires CollapseWhitespace(a[1..] + t) == CollapseWhitespace(a[1..]) + CollapseWhitespace(t)
    ensures CollapseWhitespace(a + t) == CollapseWhitespace(a) + CollapseWhitespace(t)
  {
    HeadOfAppend(a, t);
    CollapseOther(a);
    CollapseOther(a + t);
    ConcatAssoc([a[0]], CollapseWhitespace(a[1..]), CollapseWhitespace(t));
  }

  lemma HeadOfAppend(a: string, t: string)
    requires |a| > 0
    ensures (a + t)[0] == a[0] && (a + t)[1..] == a[1..] + t
  {
  }

  lemma ConcatAssoc(x: string, y: string, z: string)
    ensures x + (y + z) == (x + y) + z
  {
  }

  /** A leading white-space run becomes one underscore. */
  lemma CollapseSpaceHead(s: string)
    requires |s| > 0 && IsWhitespace(s[0])
    ensures CollapseWhitespace(s) == "_" + CollapseWhitespace(TrimStart(s))
  {
  }

  /** Each maximal run of white space, wherever it sits, becomes exactly one
      underscore between the collapsed text around it. */
  lemma CollapseRun(a: string, w: string, b: string)
    requires |a| > 0 ==> !IsWhitespace(a[|a| - 1])
    requires |w| > 0 && forall i :: 0 <= i < |w| ==> IsWhitespace(w[i])
    requires |b| > 0 ==> !IsWhitespace(b[0])
    ensures CollapseWhitespace(a + w + b) == CollapseWhitespace(a) + "_" + CollapseWhitespace(b)
  {
    ConcatAssoc(a, w, b);
    CollapseAppend(a, w + b);
    HeadOfAppend(w, b);
    TrimStartRun(w, b);
    CollapseSpaceHead(w + b);
    ConcatAssoc(CollapseWhitespace(a), "_", CollapseWhitespace(b));
  }

  /* ------------------------------------------ what cleaning preserves */

  predicate NotWhitespace(c: char) { !IsWhitespace(c) }
  predicate NotUnderscore(c: char) { c != '_' }

  /** The characters of `s` that satisfy `p`, in order. */
  function Keep(s: string, p: char -> bool): (r: string)
    ensures |r| <= |s|
  {
    if |s| == 0 then "" else (if p(s[0]) then [s[0]] else "") + Keep(s[1..], p)
  }

  lemma {:induction false} KeepAppend(a: string, b: string, p: char -> bool)
    ensures Keep(a + b, p) == Keep(a, p) + Keep(b, p)
    decreases |a|
  {
    if |a| > 0 {
      assert (a + b)[1..] == a[1..] + b;
      KeepAppend(a[1..], b, p);
    } else {
      assert a + b == b;
    }
  }

  lemma {:induction false} KeepNone(a: string, p: char -> bool)
    requires forall i :: 0 <= i < |a| ==> !p(a[i])
    ensures Keep(a, p) == ""
    decreases |a|
  {
    if |a| > 0 {
      KeepNone(a[1..], p);
    }
  }

  /** Removing the disallowed characters and then the white space leaves
      exactly the ASCII letters and digits. */
  lemma {:induction false} StripThenDropWhitespace(s: string)
    ensures Keep(StripDisallowed(s), NotWhitespace) == Keep(s, IsAsciiAlnum)
    decreases |s|
  {
    if |s| > 0 {
      StripThenDropWhitespace(s[1..]);
      KeepAppend(if Retained(s[0]) then [s[0]] else "", StripDisallowed(s[1..]), NotWhitespace);
    }
  }

  /** On a string without underscores, the underscores collapsing adds are
      the only change besides dropping white space. */
  lemma {:induction false} CollapseThenDropUnderscores(s: string)
    requires '_' !in s
    ensures Keep(CollapseWhitespace(s), NotUnderscore) == Keep(s, NotWhitespace)
    decreases |s|
  {
    if |s| > 0 {
      if IsWhitespace(s[0]) {
        var rest := TrimStart(s);
        var k := |s| - |rest|;
        assert s == s[..k] + rest;
        CollapseThenDropUnderscores(rest);
        KeepAppend(s[..k], rest, NotWhitespace);
        KeepNone(s[..k], NotWhitespace);
        KeepAppend("_", CollapseWhitespace(rest), NotUnderscore);
      } else {
        CollapseThenDropUnderscores(s[1..]);
        KeepAppend([s[0]], CollapseWhitespace(s[1..]), NotUnderscore);
      }
    }
  }

  /** Cleaning keeps every ASCII letter and digit of the course name, in
      order, and nothing else but the separating underscores. */
  lemma CleanNameKeepsAlnum(s: string)
    ensures Keep(CleanName(s), NotUnderscore) == Keep(s, IsAsciiAlnum)
  {
    var kept := StripDisallowed(s);
    assert forall i :: 0 <= i < |kept| ==> kept[i] != '_';
    CollapseThenDropUnderscores(kept);
    StripThenDropWhitespace(s);
  }

  /** Words of letters and digits separated by single spaces. */
  predicate IsWords(s: string) {
    && (forall i :: 0 <= i < |s| ==> IsAsciiAlnum(s[i]) || s[i] == ' ')
    && (forall i :: 0 <= i < |s| - 1 ==> !(s[i] == ' ' && s[i + 1] == ' '))
  }

  /** Each space replaced by an underscore. */
  function SpacesToUnderscores(s: string): (r: string)
    ensures |r| == |s|
    ensures forall i :: 0 <= i < |s| ==> r[i] == if s[i] == ' ' then '_' else s[i]
  {
    if |s| == 0 then "" else [if s[0] == ' ' then '_' else s[0]] + SpacesToUnderscores(s[1..])
  }

  /** A single leading white-space character is all `TrimStart` drops. */
  lemma TrimStartOne(s: string)
    requires |s| > 0 && IsWhitespace(s[0]) && (|s| > 1 ==> !IsWhitespace(s[1]))
    ensures TrimStart(s) == s[1..]
  {
    var rest := TrimStart(s);
    assert |rest| < |s|;
  }

  lemma CollapseLoneSpace(s: string)
    requires |s| > 0 && IsWhitespace(s[0]) && (|s| > 1 ==> !IsWhitespace(s[1]))
    ensures CollapseWhitespace(s) == "_" + CollapseWhitespace(s[1..])
  {
    TrimStartOne(s);
  }

  /** A character other than white space is copied through unchanged. */
  lemma CollapseOther(s: string)
    requires |s| > 0 && !IsWhitespace(s[0])
    ensures CollapseWhitespace(s) == [s[0]] + CollapseWhitespace(s[1..])
  {
  }

  lemma AlnumNotWhitespace(c: char)
    requires IsAsciiAlnum(c)
    ensures !IsWhitespace(c)
  {
  }

  lemma {:induction false} CollapseWords(s: string)
    requires IsWords(s)
    ensures CollapseWhitespace(s) == SpacesToUnderscores(s)
    decreases |s|
  {
    if |s| > 0 {
      assert IsWords(s[1..]);
      CollapseWords(s[1..]);
      if s[0] == ' ' {
        if |s| > 1 {
          AlnumNotWhitespace(s[1]);
        }
        CollapseLoneSpace(s);
      } else {
        AlnumNotWhitespace(s[0]);
        CollapseOther(s);
      }
    }
  }

  /** For a course name made of words separated by single spaces, cleaning
      just turns the spaces into underscores. */
  lemma CleanNameOfWords(s: string)
    requires IsWords(s)
    ensures CleanName(s) == SpacesToUnderscores(s)
  {
    assert StripDisallowed(s) == s;
    CollapseWords(s);
  }

  /* ------------------------------------------------------ the file name */

  const Infix: string := "_QR_Codes_"
  const Extension: string := ".pdf"

  /** What follows the cleaned course name. */
  function Suffix(date: string): string {
    Infix + date + Extension
  }

  /** The saved file's name for page title `title` on ISO date `date`: a
      stem of letters, digits and single underscores, then the suffix. */
  function PdfFileName(title: string, date: string): (r: string)
    ensures |r| >= |Suffix(date)|
    ensures r[|r| - |Suffix(date)|..] == Suffix(date)
    ensures forall i :: 0 <= i < |r| - |Suffix(date)| ==> IsAsciiAlnum(r[i]) || r[i] == '_'
    ensures NoDoubleUnderscore(r[..|r| - |Suffix(date)|])
  {
    var stem := CleanName(CourseName(title));
    var r := stem + Suffix(date);
    assert r[..|stem|] == stem;
    r
  }

  /** A title of the form "<course> - <term>" saved on 2024-03-15. The
      literals enter as parameters fixed by `requires`, and the proof goes
      through the course, stem and join steps separately: evaluating the
      recursive string functions on a whole literal title at once is more
      than the verifier's budget allows. */
  lemma BiologyExample(title: string, date: string)
    requires title == "Biology 101 - Spring" && date == "2024-03-15"
    ensures PdfFileName(title, date) == "Biology_101_QR_Codes_2024-03-15.pdf"
  {
    BiologyCourse(title);
    BiologyStem(CourseName(title));
    BiologyJoin(CleanName(CourseName(title)), date);
  }

  lemma BiologyJoin(stem: string, date: string)
    requires stem == "Biology_101" && date == "2024-03-15"
    ensures stem + Suffix(date) == "Biology_101_QR_Codes_2024-03-15.pdf"
  {
  }

  lemma BiologyCourse(title: string)
    requires title == "Biology 101 - Spring"
    ensures CourseName(title) == "Biology 101"
  {
    forall j | 0 <= j < 11
      ensures !OccursAt(title, j, " - ")
    {
      assert title[j + 1] != '-';
      assert title[j..j + 3][1] == title[j + 1];
    }
    assert title[11..14] == " - ";
    SplitHeadUnique("Biology 101", title, " - ");
  }

  lemma BiologyStem(course: string)
    requires course == "Biology 101"
    ensures CleanName(course) == "Biology_101"
  {
    BiologyWords(course);
    CleanNameOfWords(course);
    BiologyUnderscores(course);
  }

  lemma BiologyWords(course: string)
    requires course == "Biology 101"
    ensures IsWords(course)
  {
  }

  lemma BiologyUnderscores(course: string)
    requires course == "Biology 101"
    ensures SpacesToUnderscores(course) == "Biology_101"
  {
    var r := SpacesToUnderscores(course);
    assert forall i :: 0 <= i < |r| ==> r[i] == "Biology_101"[i];
  }
}

=== FILE: grid.dfy ===
/**
  The grid cursor of `generateQRPDF`: records are placed left to right, top
  to bottom, `cols` per row and `rows` per page, and a page is added each
  time the cursor wraps past the last row -- including after the very last
  record, so `n` records always end with `n / PerPage(cols, rows)` added pages.
  Drawing calls and coordinates are not modelled; only the cursor is.
 */
module Grid {

  /** The grid of the script: two columns, six rows. */
  const Cols: nat := 2
  const Rows: nat := 6

  /** `currentRow`, `currentCol` and the number of `addPage` calls so far. */
  datatype Cursor = Cursor(row: nat, col: nat, pagesAdded: nat)

  const Start: Cursor := Cursor(0, 0, 0)

  /** The cursor points at a cell of the grid. */
  predicate InGrid(c: Cursor, cols: nat, rows: nat) {
    c.col < cols && c.row < rows
  }

  /** Records per page. */
  function PerPage(cols: nat, rows: nat): (n: nat)
    requires 0 < cols && 0 < rows
    ensures n >= cols && n >= rows
  {
    MulAtLeast(cols, rows);
    MulAtLeast(rows, cols);
    cols * rows
  }

  /** How many cells lie before the cursor, counting full pages. */
  function Position(c: Cursor, cols: nat, rows: nat): nat {
    (c.pagesAdded * rows + c.row) * cols + c.col
  }

  /** "Move to next position": next column; past the last column, first
      column of the next row; past the last row, first row of a new page. */
  function Advance(c: Cursor, cols: nat, rows: nat): (d: Cursor)
    requires 0 < cols && 0 < rows
    ensures c.row < rows ==> InGrid(d, cols, rows)
    ensures d.pagesAdded == c.pagesAdded || d.pagesAdded == c.pagesAdded + 1
  {
    var col := c.col + 1;
    if col >= cols then
      var row := c.row + 1;
      if row >= rows then Cursor(0, 0, c.pagesAdded + 1)
      else Cursor(row, 0, c.pagesAdded)
    else Cursor(c.row, col, c.pagesAdded)
  }

  /** Advancing moves an in-grid cursor exactly one cell forward. */
  lemma AdvanceStep(c: Cursor, cols: nat, rows: nat)
    requires 0 < cols && 0 < rows && InGrid(c, cols, rows)
    ensures Position(Advance(c, cols, rows), cols, rows) == Position(c, cols, rows) + 1
  {
    var d := Advance(c, cols, rows);
    if c.col + 1 >= cols && c.row + 1 >= rows {
      assert (c.pagesAdded * rows + c.row) * cols + c.col + 1 == ((c.pagesAdded + 1) * rows) * cols;
    } else if c.col + 1 >= cols {
      assert (c.pagesAdded * rows + c.row) * cols + c.col + 1 == (c.pagesAdded * rows + c.row + 1) * cols;
    }
  }

  /** The cursor after `n` records have been placed. */
  function CursorAfter(n: nat, cols: nat, rows: nat): (c: Cursor)
    requires 0 < cols && 0 < rows
    ensures InGrid(c, cols, rows)
  {
    if n == 0 then Start else Advance(CursorAfter(n - 1, cols, rows), cols, rows)
  }

  /** After `n` records the cursor has moved over exactly `n` cells. */
  lemma {:induction false} CursorPosition(n: nat, cols: nat, rows: nat)
    requires 0 < cols && 0 < rows
    ensures Position(CursorAfter(n, cols, rows), cols, rows) == n
  {
    if n > 0 {
      CursorPosition(n - 1, cols, rows);
      AdvanceStep(CursorAfter(n - 1, cols, rows), cols, rows);
    }
  }

  /* ------------------------------------------------------ arithmetic */

  lemma DivModUnique(n: int, d: int, q: int, r: int)
    requires 0 < d && 0 <= r < d && n == q * d + r
    ensures n / d == q && n % d == r
  {
    var q' := n / d;
    var r' := n % d;
    assert n == q' * d + r';
    assert (q - q') * d == r' - r;
    if q > q' {
      MulAtLeast(q - q', d);
    } else if q < q' {
      MulAtLeast(q' - q, d);
    }
  }

  lemma MulAtLeast(k: int, d: int)
    requires 1 <= k && 0 < d
    ensures k * d >= d
  {
  }

  lemma MulMonotone(a: nat, b: nat, d: nat)
    requires a <= b
    ensures a * d <= b * d
  {
  }

  lemma Regroup(p: nat, rows: nat, row: nat, cols: nat)
    ensures (p * rows + row) * cols == p * (cols * rows) + row * cols
  {
  }

  /** Mixed-radix digits are unique: a position written as page, row and
      column digits is recovered by division and remainder. */
  lemma MixedRadix(n: nat, cols: nat, rows: nat, p: nat, row: nat, col: nat)
    requires 0 < cols && 0 < rows && col < cols && row < rows
    requires n == (p * rows + row) * cols + col
    ensures n % cols == col && (n / cols) % rows == row && n / PerPage(cols, rows) == p
  {
    DivModUnique(n, cols, p * rows + row, col);
    DivModUnique(p * rows + row, rows, p, row);
    PageDigit(n, cols, rows, p, row, col);
  }

  lemma PageDigit(n: nat, cols: nat, rows: nat, p: nat, row: nat, col: nat)
    requires 0 < cols && 0 < rows && col < cols && row < rows
    requires n == (p * rows + row) * cols + col
    ensures n / PerPage(cols, rows) == p
  {
    LowDigitsBound(cols, rows, row, col);
    Regroup(p, rows, row, cols);
    DivModUnique(n, PerPage(cols, rows), p, row * cols + col);
  }

  lemma LowDigitsBound(cols: nat, rows: nat, row: nat, col: nat)
    requires col < cols && row < rows
    ensures row * cols + col < cols * rows
  {
    MulMonotone(row, rows - 1, cols);
    assert (rows - 1) * cols == rows * cols - cols;
  }

  /* ------------------------------------------------------- closed form */

  /** Column, row and page of the `i`-th record (0-based) by arithmetic. */
  function ColOf(i: nat, cols: nat): nat
    requires 0 < cols
  {
    i % cols
  }

  function RowOf(i: nat, cols: nat, rows: nat): nat
    requires 0 < cols && 0 < rows
  {
    (i / cols) % rows
  }

  function PageOf(i: nat, cols: nat, rows: nat): nat
    requires 0 < cols && 0 < rows
  {
    i / PerPage(cols, rows)
  }

  /** The cursor after `n` records points at the cell the arithmetic gives. */
  lemma ClosedForm(n: nat, cols: nat, rows: nat)
    requires 0 < cols && 0 < rows
    ensures CursorAfter(n, cols, rows) == Cursor(RowOf(n, cols, rows), ColOf(n, cols), PageOf(n, cols, rows))
  {
    var c := CursorAfter(n, cols, rows);
    CursorPosition(n, cols, rows);
    MixedRadix(n, cols, rows, c.pagesAdded, c.row, c.col);
  }

  /* ------------------------------------------------------------ layout */

  /** Where one record is drawn. */
  datatype Cell = Cell(page: nat, row: nat, col: nat)

  /** The cell the cursor designates: its page is the number of pages
      added before it. */
  function CellOf(c: Cursor): Cell {
    Cell(c.pagesAdded, c.row, c.col)
  }

  /** The placement loop: the cell of every record in order, and the number
      of `addPage` calls the loop makes. */
  method Layout(count: nat, cols: nat, rows: nat) returns (cells: seq<Cell>, pagesAdded: nat)
    requires 0 < cols && 0 < rows
    ensures |cells| == count
    ensures forall i :: 0 <= i < count ==>
      cells[i] == Cell(PageOf(i, cols, rows), RowOf(i, cols, rows), ColOf(i, cols))
    ensures forall i :: 0 <= i < count ==> cells[i].row < rows && cells[i].col < cols
    ensures pagesAdded == PageOf(count, cols, rows)
  {
    var currentRow: nat := 0;
    var currentCol: nat := 0;
    pagesAdded := 0;
    cells := [];
    var i := 0;
    while i < count
      invariant 0 <= i <= count
      invariant |cells| == i
      invariant Cursor(currentRow, currentCol, pagesAdded) == CursorAfter(i, cols, rows)
      invariant forall k {:trigger cells[k]} :: 0 <= k < i ==> cells[k] == CellOf(CursorAfter(k, cols, rows))
    {
      assert CursorAfter(i + 1, cols, rows) == Advance(Cursor(currentRow, currentCol, pagesAdded), cols, rows);
      cells := cells + [Cell(pagesAdded, currentRow, currentCol)];
      currentCol := currentCol + 1;
      if currentCol >= cols {
        currentCol := 0;
        currentRow := currentRow + 1;
        if currentRow >= rows {
          currentRow := 0;
          pagesAdded := pagesAdded + 1;
        }
      }
      i := i + 1;
    }
    ClosedForm(count, cols, rows);
    CellsClosedForm(cells, cols, rows);
  }

  lemma CellsClosedForm(cells: seq<Cell>, cols: nat, rows: nat)
    requires 0 < cols && 0 < rows
    requires forall k {:trigger cells[k]} :: 0 <= k < |cells| ==> cells[k] == CellOf(CursorAfter(k, cols, rows))
    ensures forall i :: 0 <= i < |cells| ==>
      cells[i] == Cell(PageOf(i, cols, rows), RowOf(i, cols, rows), ColOf(i, cols))
    ensures forall i :: 0 <= i < |cells| ==> cells[i].row < rows && cells[i].col < cols
  {
    forall i | 0 <= i < |cells|
      ensures cells[i] == Cell(PageOf(i, cols, rows), RowOf(i, cols, rows), ColOf(i, cols))
    {
      ClosedForm(i, cols, rows);
    }
  }

  /** Pages in the finished document: the first one plus one per wrap. */
  function PageCount(count: nat, cols: nat, rows: nat): (p: nat)
    requires 0 < cols && 0 < rows
    ensures p == 1 + CursorAfter(count, cols, rows).pagesAdded
  {
    ClosedForm(count, cols, rows);
    1 + count / PerPage(cols, rows)
  }

  lemma DivBelowMultiple(i: nat, count: nat, per: nat)
    requires 0 < per && count % per == 0 && i < count
    ensures i / per < count / per
  {
    var q := count / per;
    assert count == q * per;
    if i / per >= q {
      MulMonotone(q, i / per, per);
    }
  }

  lemma DivBelowNonMultiple(count: nat, per: nat)
    requires 0 < per && count % per != 0
    ensures count > 0 && (count - 1) / per == count / per
  {
    DivModUnique(count - 1, per, count / per, count % per - 1);
  }

  /** The last page holds no record exactly when the record count is a
      multiple of the page capacity (zero included): the wrap after the
      last record of a full page still adds a page. */
  lemma LastPageEmpty(count: nat, cols: nat, rows: nat)
    requires 0 < cols && 0 < rows
    ensures (forall i :: 0 <= i < count ==> CursorAfter(i, cols, rows).pagesAdded < PageCount(count, cols, rows) - 1)
        <==> count % PerPage(cols, rows) == 0
  {
    var per := PerPage(cols, rows);
    ClosedForm(count, cols, rows);
    if count % per == 0 {
      forall i | 0 <= i < count
        ensures CursorAfter(i, cols, rows).pagesAdded < PageCount(count, cols, rows) - 1
      {
        ClosedForm(i, cols, rows);
        DivBelowMultiple(i, count, per);
      }
    } else {
      DivBelowNonMultiple(count, per);
      ClosedForm(count - 1, cols, rows);
      assert CursorAfter(count - 1, cols, rows).pagesAdded == PageCount(count, cols, rows) - 1;
    }
  }

  /** The record after a full page of them starts the second page at its
      first cell: with the script's 2 x 6 grid, record 12 (0-based) sits on
      page 1, row 0, column 0. */
  lemma ThirteenthRecordStartsPageTwo()
    ensures CursorAfter(12, Cols, Rows) == Cursor(0, 0, 1)
    ensures CursorAfter(11, Cols, Rows) == Cursor(5, 1, 0)
  {
    ClosedForm(12, Cols, Rows);
    ClosedForm(11, Cols, Rows);
  }
}

=== FILE: roster.dfy ===
/**
  The roster extractor of the Canvas QR generator (`extractStudents`).

  The page is abstracted as the answer of `querySelectorAll` for each of the
  six selectors the script tries; an element is the pair of its trimmed-later
  `textContent` and its resolved `href`. The extractor takes the first
  selector that matches anything, turns every matched element into a student
  record (name, numeric user id, display text), filters and de-duplicates
  them on the fly, de-duplicates once more and sorts by name.
 */
module Roster {
  import opened Text

  /** One element returned by a selector. */
  datatype Element = Element(textContent: string, href: string)

  /** The selectors, in the order the script tries them. Every one picks
      links whose address contains "/users/". */
  datatype Selector =
    | NewUserLink         // inside an element whose test id mentions "user" (new interface)
    | NewUserRowLink      // in a cell of a table row whose test id mentions "user"
    | ClassicRosterName   // inside the classic roster's user-name element
    | ClassicStudentName  // inside a student's name in the classic student roster
    | CourseUserLink      // any link whose address also contains "/courses/"
    | UserNameLink        // inside a generic user-name element

  const Selectors: seq<Selector> :=
    [NewUserLink, NewUserRowLink, ClassicRosterName, ClassicStudentName, CourseUserLink, UserNameLink]

  /** A page snapshot: what `document.querySelectorAll` returns for each selector. */
  type Document = Selector -> seq<Element>

  datatype Student = Student(name: string, id: string, displayText: string)

  /* ------------------------------------------------- first match wins */

  /** The elements of the first selector, from index `k` on, that matches at
      least one element; none when no selector from `k` on matches. */
  function FirstMatchFrom(doc: Document, k: nat): (els: seq<Element>)
    requires k <= |Selectors|
    ensures els == [] ==> forall j :: k <= j < |Selectors| ==> doc(Selectors[j]) == []
    ensures els != [] ==>
      exists j :: k <= j < |Selectors| && doc(Selectors[j]) == els &&
        forall i :: k <= i < j ==> doc(Selectors[i]) == []
    decreases |Selectors| - k
  {
    if k == |Selectors| then []
    else if |doc(Selectors[k])| > 0 then doc(Selectors[k])
    else FirstMatchFrom(doc, k + 1)
  }

  /** The loop over `selectors` with its `break`. */
  function FirstMatch(doc: Document): seq<Element> {
    FirstMatchFrom(doc, 0)
  }

  /* ------------------------------------------------- one element's record */

  /** `href` holds `users/` at `p` followed by at least one digit: a place
      where the user-id pattern matches. */
  predicate UserIdAt(href: string, p: int) {
    OccursAt(href, p, "users/") && p + 6 < |href| && IsDigit(href[p + 6])
  }

  /** `id` is the group the pattern captures at `p`: the maximal run of
      digits after `users/`. */
  predicate CapturedAt(href: string, p: int, id: string) {
    && UserIdAt(href, p)
    && p + 6 + |id| <= |href|
    && href[p + 6..p + 6 + |id|] == id
    && AllDigits(id)
    && (p + 6 + |id| == |href| || !IsDigit(href[p + 6 + |id|]))
  }

  /** Length of the run of digits that starts at index `i`. */
  function DigitRun(s: string, i: nat): (n: nat)
    requires i <= |s|
    ensures i + n <= |s|
    ensures forall k :: i <= k < i + n ==> IsDigit(s[k])
    ensures i + n == |s| || !IsDigit(s[i + n])
    decreases |s| - i
  {
    if i < |s| && IsDigit(s[i]) then 1 + DigitRun(s, i + 1) else 0
  }

  /** Leftmost index at or after `p` where `users/` is followed by a digit,
      or -1 when there is none. */
  function FirstUserIdFrom(href: string, p: nat): (q: int)
    requires p <= |href|
    ensures q == -1 <==> forall q' :: p <= q' ==> !UserIdAt(href, q')
    ensures q != -1 ==> p <= q && UserIdAt(href, q) && forall q' :: p <= q' < q ==> !UserIdAt(href, q')
    decreases |href| - p
  {
    if p + 6 >= |href| then -1
    else if UserIdAt(href, p) then p
    else FirstUserIdFrom(href, p + 1)
  }

  /** The digits a match at `q` captures: all of those that follow `users/`. */
  function CaptureAt(href: string, q: int): (id: string)
    requires UserIdAt(href, q)
    ensures |id| > 0 && CapturedAt(href, q, id)
  {
    var n := DigitRun(href, q + 6);
    href[q + 6..q + 6 + n]
  }

  /** The capture is determined by its position: the run of digits is maximal. */
  lemma CaptureUnique(href: string, q: int, a: string, b: string)
    requires CapturedAt(href, q, a) && CapturedAt(href, q, b)
    ensures a == b
  {
    DigitRunMaximal(href, q + 6, |a|);
    DigitRunMaximal(href, q + 6, |b|);
  }

  /** A run of `n` digits at `i` that the next character does not extend is
      the one `DigitRun` measures. */
  lemma DigitRunMaximal(s: string, i: nat, n: nat)
    requires i + n <= |s|
    requires forall k :: i <= k < i + n ==> IsDigit(s[k])
    requires i + n == |s| || !IsDigit(s[i + n])
    ensures DigitRun(s, i) == n
  {
  }

  /** The user id in a profile link: empty when no `users/` is followed by
      a digit, otherwise the digits after the leftmost one that is. */
  function MatchUserId(href: string): (id: string)
    ensures id == "" <==> forall q :: 0 <= q ==> !UserIdAt(href, q)
    ensures id != "" ==> CapturedAt(href, FirstUserIdFrom(href, 0), id)
  {
    var q := FirstUserIdFrom(href, 0);
    if q == -1 then "" else CaptureAt(href, q)
  }

  function NameOf(e: Element): string {
    Trim(e.textContent)
  }

  function IdOf(e: Element): string {
    MatchUserId(e.href)
  }

  /** The filter on name and id, without the duplicate check. */
  predicate Admissible(name: string, id: string) {
    && |name| > 0 && |id| > 0
    && Utf16Length(name) > 2 && Utf16Length(name) < 100
    && !Contains(ToLower(name), "test user")
  }

  predicate Accepted(e: Element) {
    Admissible(NameOf(e), IdOf(e))
  }

  function DisplayText(name: string, id: string): string {
    name + " (" + id + ")"
  }

  function RecordOf(e: Element): Student {
    Student(NameOf(e), IdOf(e), DisplayText(NameOf(e), IdOf(e)))
  }

  /** What every record the extractor returns looks like. */
  predicate WellFormed(s: Student) {
    && IsTrimmed(s.name)
    && 2 < Utf16Length(s.name) < 100
    && !Contains(ToLower(s.name), "test user")
    && |s.id| > 0 && AllDigits(s.id)
    && s.displayText == DisplayText(s.name, s.id)
  }

  /** The record of an element that passes the filter is well formed, and
      its id is the capture at the leftmost match. */
  lemma AcceptedRecordWellFormed(e: Element)
    ensures Accepted(e) ==> WellFormed(RecordOf(e))
    ensures Accepted(e) ==> CapturedAt(e.href, FirstUserIdFrom(e.href, 0), RecordOf(e).id)
  {
  }

  /* ----------------------------------------------- the filtering pass */

  /** What the `forEach` body derives from one element before it decides:
      the record it would push and whether the name/id filter passes. */
  datatype Candidate = Candidate(record: Student, admissible: bool)

  function Scan(e: Element): (c: Candidate)
    ensures c.record.name == NameOf(e) && c.record.id == IdOf(e)
    ensures c.admissible <==> Accepted(e)
    ensures c.admissible ==> WellFormed(c.record)
  {
    Candidate(RecordOf(e), Accepted(e))
  }

  function ScanAll(els: seq<Element>): (cs: seq<Candidate>)
    ensures |cs| == |els|
    ensures forall k :: 0 <= k < |els| ==> cs[k] == Scan(els[k])
  {
    seq(|els|, k requires 0 <= k < |els| => Scan(els[k]))
  }

  /** Some record in `students` has id `id`. */
  predicate HasId(students: seq<Student>, id: string) {
    exists k :: 0 <= k < |students| && students[k].id == id
  }

  predicate DistinctIds(students: seq<Student>) {
    forall i, j :: 0 <= i < j < |students| ==> students[i].id != students[j].id
  }

  /** The `forEach` over the matched elements: push the record of every
      admissible element whose id has not been pushed yet. */
  function Collect(cs: seq<Candidate>, students: seq<Student>): seq<Student>
    decreases |cs|
  {
    if |cs| == 0 then students
    else
      var c := cs[0];
      if c.admissible && !HasId(students, c.record.id) then Collect(cs[1..], students + [c.record])
      else Collect(cs[1..], students)
  }

  /** Candidate `k` is admissible and no earlier admissible candidate has its id. */
  predicate FirstOfItsId(cs: seq<Candidate>, k: int) {
    && 0 <= k < |cs|
    && cs[k].admissible
    && forall j :: 0 <= j < k && cs[j].admissible ==> cs[j].record.id != cs[k].record.id
  }

  /** Reference definition of the filtering pass over the first `n`
      candidates: the records of those that are first of their id, in
      element order. */
  function Kept(cs: seq<Candidate>, n: nat): seq<Student>
    requires n <= |cs|
  {
    if n == 0 then []
    else Kept(cs, n - 1) + (if FirstOfItsId(cs, n - 1) then [cs[n - 1].record] else [])
  }

  lemma {:induction false} KeptMembers(cs: seq<Candidate>, n: nat)
    requires n <= |cs|
    ensures forall x :: x in Kept(cs, n) <==> exists k :: 0 <= k < n && FirstOfItsId(cs, k) && x == cs[k].record
  {
    if n > 0 {
      KeptMembers(cs, n - 1);
    }
  }

  lemma {:induction false} KeptHasId(cs: seq<Candidate>, n: nat, id: string)
    requires n <= |cs|
    ensures HasId(Kept(cs, n), id) <==> exists j :: 0 <= j < n && cs[j].admissible && cs[j].record.id == id
  {
    if n > 0 {
      KeptHasId(cs, n - 1, id);
      var p := Kept(cs, n - 1);
      var q := Kept(cs, n);
      if HasId(p, id) {
        var k :| 0 <= k < |p| && p[k].id == id;
        assert q[k] == p[k];
      }
      if !HasId(p, id) && cs[n - 1].admissible && cs[n - 1].record.id == id {
        // No earlier admissible candidate carries the id, so the last one is kept.
        assert FirstOfItsId(cs, n - 1);
        assert q[|q| - 1].id == id;
      }
    }
  }

  lemma {:induction false} KeptDistinct(cs: seq<Candidate>, n: nat)
    requires n <= |cs|
    ensures DistinctIds(Kept(cs, n))
  {
    if n > 0 {
      KeptDistinct(cs, n - 1);
      var p := Kept(cs, n - 1);
      if FirstOfItsId(cs, n - 1) {
        var id := cs[n - 1].record.id;
        KeptHasId(cs, n - 1, id);
        var q := p + [cs[n - 1].record];
        forall i, j | 0 <= i < j < |q|
          ensures q[i].id != q[j].id
        {
          if j == |q| - 1 {
            assert q[i] == p[i];
          }
        }
      }
    }
  }

  /** One more candidate: the reference definition grows exactly when the
      candidate is admissible and its id is not yet present. */
  lemma KeptStep(cs: seq<Candidate>, n: nat)
    requires n < |cs|
    ensures Kept(cs, n + 1) ==
      if cs[n].admissible && !HasId(Kept(cs, n), cs[n].record.id) then Kept(cs, n) + [cs[n].record] else Kept(cs, n)
  {
    KeptHasId(cs, n, cs[n].record.id);
  }

  /** The filtering pass computes the reference definition. */
  lemma {:induction false} CollectIsKept(cs: seq<Candidate>, n: nat)
    requires n <= |cs|
    ensures Collect(cs[n..], Kept(cs, n)) == Kept(cs, |cs|)
    decreases |cs| - n
  {
    if n < |cs| {
      KeptStep(cs, n);
      assert cs[n..][0] == cs[n] && cs[n..][1..] == cs[n + 1..];
      CollectIsKept(cs, n + 1);
    }
  }

  /** The filtering pass over the matched elements, started with no students. */
  function FilterPass(els: seq<Element>): (r: seq<Student>)
    ensures r == Kept(ScanAll(els), |els|)
    ensures DistinctIds(r)
    ensures forall x :: x in r <==> exists k :: FirstOfItsId(ScanAll(els), k) && x == ScanAll(els)[k].record
  {
    var cs := ScanAll(els);
    CollectIsKept(cs, 0);
    assert cs[0..] == cs;
    KeptMembers(cs, |cs|);
    KeptDistinct(cs, |cs|);
    Collect(cs, [])
  }

  /** Every record the filtering pass keeps is well formed. */
  lemma FilterPassWellFormed(els: seq<Element>)
    ensures forall x :: x in FilterPass(els) ==> WellFormed(x)
  {
    var cs := ScanAll(els);
    forall x | x in FilterPass(els)
      ensures WellFormed(x)
    {
      var k :| FirstOfItsId(cs, k) && x == cs[k].record;
      assert cs[k] == Scan(els[k]);
    }
  }

  /** The filtering pass keeps nothing exactly when no element passes the filter. */
  lemma FilterPassEmpty(els: seq<Element>)
    ensures FilterPass(els) == [] <==> forall k :: 0 <= k < |els| ==> !Accepted(els[k])
  {
    if exists k :: 0 <= k < |els| && Accepted(els[k]) {
      var k :| 0 <= k < |els| && Accepted(els[k]);
      AcceptedKeepsSomething(els, k);
    }
    if FilterPass(els) != [] {
      KeptComesFromAccepted(els);
    }
  }

  lemma AcceptedKeepsSomething(els: seq<Element>, k: nat)
    requires k < |els|
    ensures Accepted(els[k]) ==> FilterPass(els) != []
  {
    if Accepted(els[k]) {
      var cs := ScanAll(els);
      assert cs[k] == Scan(els[k]);
      KeptHasId(cs, |cs|, cs[k].record.id);
    }
  }

  lemma KeptComesFromAccepted(els: seq<Element>)
    ensures FilterPass(els) != [] ==> exists k :: 0 <= k < |els| && Accepted(els[k])
  {
    if FilterPass(els) != [] {
      var cs := ScanAll(els);
      var x := FilterPass(els)[0];
      assert x in FilterPass(els);
      var k :| FirstOfItsId(cs, k) && x == cs[k].record;
      assert cs[k] == Scan(els[k]);
    }
  }

  /* ------------------------------------------ the second de-duplication */

  /** The first index holding `id`, or -1 when there is none. */
  function FindIndex(s: seq<Student>, id: string): (r: int)
    ensures -1 <= r < |s|
    ensures r == -1 <==> forall k :: 0 <= k < |s| ==> s[k].id != id
    ensures r >= 0 ==> s[r].id == id && forall k :: 0 <= k < r ==> s[k].id != id
  {
    if |s| == 0 then -1
    else if s[0].id == id then 0
    else
      var t := FindIndex(s[1..], id);
      if t == -1 then -1 else t + 1
  }

  /** Index `k` is the first occurrence of its id. */
  predicate FirstIndexOfId(s: seq<Student>, k: int) {
    0 <= k < |s| && FindIndex(s, s[k].id) == k
  }

  /** The first-occurrence test applied to the records from index `i` on. */
  function UniqueFrom(s: seq<Student>, i: nat): (r: seq<Student>)
    requires i <= |s|
    ensures |r| <= |s| - i
    decreases |s| - i
  {
    if i == |s| then []
    else (if FindIndex(s, s[i].id) == i then [s[i]] else []) + UniqueFrom(s, i + 1)
  }

  /** The filter keeps exactly the first occurrence of every id. */
  lemma {:induction false} UniqueFromMembers(s: seq<Student>, i: nat)
    requires i <= |s|
    ensures forall x :: x in UniqueFrom(s, i) <==> exists k :: i <= k < |s| && FirstIndexOfId(s, k) && x == s[k]
    decreases |s| - i
  {
    if i < |s| {
      UniqueFromMembers(s, i + 1);
    }
  }

  lemma {:induction false} UniqueFromDistinctIds(s: seq<Student>, i: nat)
    requires i <= |s|
    ensures DistinctIds(UniqueFrom(s, i))
    decreases |s| - i
  {
    if i < |s| {
      var rest := UniqueFrom(s, i + 1);
      UniqueFromDistinctIds(s, i + 1);
      if FindIndex(s, s[i].id) == i {
        UniqueFromMembers(s, i + 1);
        forall j | 0 <= j < |rest|
          ensures rest[j].id != s[i].id
        {
          assert rest[j] in rest;
          var k :| i + 1 <= k < |s| && FirstIndexOfId(s, k) && rest[j] == s[k];
        }
        var r := [s[i]] + rest;
        assert forall j :: 0 < j < |r| ==> r[j] == rest[j - 1];
      }
    }
  }

  /** The filter keeps input order: the kept records' first indices rise,
      and none lies before `i`. */
  lemma {:induction false} UniqueFromOrdered(s: seq<Student>, i: nat)
    requires i <= |s|
    ensures forall p :: 0 <= p < |UniqueFrom(s, i)| ==> i <= FindIndex(s, UniqueFrom(s, i)[p].id)
    ensures forall p, q :: 0 <= p < q < |UniqueFrom(s, i)| ==>
      FindIndex(s, UniqueFrom(s, i)[p].id) < FindIndex(s, UniqueFrom(s, i)[q].id)
    decreases |s| - i
  {
    if i < |s| {
      var rest := UniqueFrom(s, i + 1);
      UniqueFromOrdered(s, i + 1);
      if FindIndex(s, s[i].id) == i {
        var r := [s[i]] + rest;
        assert forall j :: 0 < j < |r| ==> r[j] == rest[j - 1];
      }
    }
  }

  /** The records whose index is the first one holding their id, in order. */
  function UniqueById(s: seq<Student>): (r: seq<Student>)
    ensures DistinctIds(r)
    ensures forall x :: x in r ==> x in s
    ensures forall k :: 0 <= k < |s| ==> HasId(r, s[k].id)
    ensures forall p :: 0 <= p < |r| ==> 0 <= FindIndex(s, r[p].id) && r[p] == s[FindIndex(s, r[p].id)]
    ensures forall p, q :: 0 <= p < q < |r| ==> FindIndex(s, r[p].id) < FindIndex(s, r[q].id)
  {
    var r := UniqueFrom(s, 0);
    UniqueFromMembers(s, 0);
    UniqueFromDistinctIds(s, 0);
    UniqueFromOrdered(s, 0);
    forall p | 0 <= p < |r|
      ensures 0 <= FindIndex(s, r[p].id) && r[p] == s[FindIndex(s, r[p].id)]
    {
      assert r[p] in r;
      var k :| 0 <= k < |s| && FirstIndexOfId(s, k) && r[p] == s[k];
    }
    forall k | 0 <= k < |s|
      ensures HasId(r, s[k].id)
    {
      var f := FindIndex(s, s[k].id);
      assert FirstIndexOfId(s, f);
      assert s[f] in r;
      var m :| 0 <= m < |r| && r[m] == s[f];
    }
    r
  }

  /** On a list whose ids are already distinct the second pass is the identity. */
  lemma {:induction false} UniqueFromDistinct(s: seq<Student>, i: nat)
    requires i <= |s| && DistinctIds(s)
    ensures UniqueFrom(s, i) == s[i..]
    decreases |s| - i
  {
    if i < |s| {
      UniqueFromDistinct(s, i + 1);
      FirstIndexWhenDistinct(s, i);
      assert s[i..] == [s[i]] + s[i + 1..];
    }
  }

  lemma FirstIndexWhenDistinct(s: seq<Student>, i: nat)
    requires i < |s| && DistinctIds(s)
    ensures FindIndex(s, s[i].id) == i
  {
    var f := FindIndex(s, s[i].id);
    assert f != -1 by {
      assert s[i].id == s[i].id;
    }
  }

  lemma UniqueByIdDistinct(s: seq<Student>)
    requires DistinctIds(s)
    ensures UniqueById(s) == s
  {
    UniqueFromDistinct(s, 0);
  }
}

=== FILE: sort.dfy ===
/**
  The final sort of the roster by name under the locale-aware comparison.
  JavaScript's `Array.prototype.sort` is stable, so the model is a stable
  insertion sort; the collation is the code-point order `Text.Less`.
 */
module NameSort {
  import opened Text
  import opened Roster

  /** No record is named after a later one. */
  predicate SortedByName(s: seq<Student>) {
    forall i, j :: 0 <= i < j < |s| ==> !Less(s[j].name, s[i].name)
  }

  /** The records of `s` named `n`, in their order in `s`. */
  function WithName(s: seq<Student>, n: string): seq<Student> {
    if |s| == 0 then [] else (if s[0].name == n then [s[0]] else []) + WithName(s[1..], n)
  }

  lemma WithNameCons(x: Student, s: seq<Student>, n: string)
    ensures WithName([x] + s, n) == (if x.name == n then [x] else []) + WithName(s, n)
  {
    assert ([x] + s)[1..] == s;
  }

  /** Inserts `x` in front of the first record that is not named before it. */
  function Insert(x: Student, s: seq<Student>): (r: seq<Student>)
    ensures multiset(r) == multiset(s) + multiset{x}
  {
    if |s| == 0 || !Less(s[0].name, x.name) then [x] + s
    else
      assert s == [s[0]] + s[1..];
      [s[0]] + Insert(x, s[1..])
  }

  lemma {:induction false} InsertSorted(x: Student, s: seq<Student>)
    requires SortedByName(s)
    ensures SortedByName(Insert(x, s))
  {
    var r := Insert(x, s);
    if |s| == 0 || !Less(s[0].name, x.name) {
      forall j | 0 <= j < |s|
        ensures !Less(s[j].name, x.name)
      {
        if j > 0 {
          NotLessTransitive(x.name, s[0].name, s[j].name);
        }
      }
      assert forall j :: 0 < j < |r| ==> r[j] == s[j - 1];
    } else {
      var t := Insert(x, s[1..]);
      InsertSorted(x, s[1..]);
      forall j | 0 <= j < |t|
        ensures !Less(t[j].name, s[0].name)
      {
        assert t[j] in multiset(t);
        if t[j] == x {
          LessAsymmetric(s[0].name, x.name);
        } else {
          assert t[j] in s[1..];
        }
      }
      assert forall j :: 0 < j < |r| ==> r[j] == t[j - 1];
    }
  }

  /** Inserting keeps the order among the records of every name, `x` first. */
  lemma {:induction false} InsertStable(x: Student, s: seq<Student>, n: string)
    ensures WithName(Insert(x, s), n) == WithName([x] + s, n)
  {
    if |s| > 0 && Less(s[0].name, x.name) {
      InsertStable(x, s[1..], n);
      InsertStableStep(x, s, n);
    }
  }

  /** Passing `s[0]` does not reorder records of one name: `x` and `s[0]`
      cannot share a name when `s[0]` is named strictly before `x`. */
  lemma InsertStableStep(x: Student, s: seq<Student>, n: string)
    requires |s| > 0 && Less(s[0].name, x.name)
    requires WithName(Insert(x, s[1..]), n) == WithName([x] + s[1..], n)
    ensures WithName(Insert(x, s), n) == WithName([x] + s, n)
  {
    var t := Insert(x, s[1..]);
    assert Insert(x, s) == [s[0]] + t;
    assert s == [s[0]] + s[1..];
    WithNameCons(s[0], t, n);
    WithNameCons(x, s[1..], n);
    WithNameCons(x, s, n);
    WithNameCons(s[0], s[1..], n);
    LessIrreflexive(x.name);
  }

  /** Inserting a record whose id is new keeps the ids distinct. */
  lemma {:induction false} InsertDistinct(x: Student, s: seq<Student>)
    requires DistinctIds(s) && !HasId(s, x.id)
    ensures DistinctIds(Insert(x, s))
  {
    if |s| > 0 && Less(s[0].name, x.name) {
      assert !HasId(s[1..], x.id);
      InsertDistinct(x, s[1..]);
      InsertDistinctStep(x, s);
    } else {
      var r := Insert(x, s);
      assert forall j :: 0 < j < |r| ==> r[j] == s[j - 1];
    }
  }

  lemma InsertDistinctStep(x: Student, s: seq<Student>)
    requires |s| > 0 && Less(s[0].name, x.name)
    requires DistinctIds(s) && !HasId(s, x.id)
    requires DistinctIds(Insert(x, s[1..]))
    ensures DistinctIds(Insert(x, s))
  {
    var t := Insert(x, s[1..]);
    var r := Insert(x, s);
    forall j | 0 <= j < |t|
      ensures t[j].id != s[0].id
    {
      assert t[j] in multiset(t);
      if t[j] != x {
        var m :| 0 <= m < |s[1..]| && s[1..][m] == t[j];
        assert s[m + 1] == t[j];
      }
    }
    assert forall j :: 0 < j < |r| ==> r[j] == t[j - 1];
  }

  /** Stable sort by name. */
  function SortByName(s: seq<Student>): (r: seq<Student>)
    ensures multiset(r) == multiset(s)
  {
    if |s| == 0 then []
    else
      assert s == [s[0]] + s[1..];
      Insert(s[0], SortByName(s[1..]))
  }

  /** The sort returns a permutation of its input, ordered by name, in which
      records that share a name keep their relative order. */
  lemma SortByNameCorrect(s: seq<Student>)
    ensures multiset(SortByName(s)) == multiset(s)
    ensures SortedByName(SortByName(s))
    ensures forall n :: WithName(SortByName(s), n) == WithName(s, n)
    ensures DistinctIds(s) ==> DistinctIds(SortByName(s))
  {
    SortSorted(s);
    forall n
      ensures WithName(SortByName(s), n) == WithName(s, n)
    {
      SortStable(s, n);
    }
    if DistinctIds(s) {
      SortDistinct(s);
    }
  }

  lemma {:induction false} SortSorted(s: seq<Student>)
    ensures SortedByName(SortByName(s))
  {
    if |s| > 0 {
      SortSorted(s[1..]);
      InsertSorted(s[0], SortByName(s[1..]));
    }
  }

  lemma {:induction false} SortStable(s: seq<Student>, n: string)
    ensures WithName(SortByName(s), n) == WithName(s, n)
  {
    if |s| > 0 {
      var t := SortByName(s[1..]);
      SortStable(s[1..], n);
      InsertStable(s[0], t, n);
      WithNameCons(s[0], t, n);
      WithNameCons(s[0], s[1..], n);
      assert s == [s[0]] + s[1..];
    }
  }

  lemma {:induction false} SortDistinct(s: seq<Student>)
    requires DistinctIds(s)
    ensures DistinctIds(SortByName(s))
  {
    if |s| > 0 {
      var t := SortByName(s[1..]);
      assert DistinctIds(s[1..]);
      SortDistinct(s[1..]);
      forall k | 0 <= k < |t|
        ensures t[k].id != s[0].id
      {
        assert t[k] in multiset(s[1..]);
        var m :| 0 <= m < |s[1..]| && s[1..][m] == t[k];
        assert s[m + 1] == t[k];
      }
      InsertDistinct(s[0], t);
    }
  }
}

=== FILE: text.dfy ===
/**
  Character classes and string helpers shared by the roster extractor and the
  file-name derivation of the Canvas QR generator.

  A Dafny `char` is a Unicode scalar value. JavaScript strings are sequences of
  UTF-16 code units, so where the script measures a length (`name.length`) the
  model counts code units explicitly with `Utf16Length`.
 */
module Text {

  /** The ECMAScript White Space and Line Terminator code points: what
      `String.prototype.trim` removes and what the regular-expression class
      `\s` matches. */
  const WhitespaceChars: set<char> := {
    '\t', '\n', '\U{000B}', '\U{000C}', '\r', ' ', '\U{00A0}', '\U{1680}',
    '\U{2000}', '\U{2001}', '\U{2002}', '\U{2003}', '\U{2004}', '\U{2005}',
    '\U{2006}', '\U{2007}', '\U{2008}', '\U{2009}', '\U{200A}',
    '\U{2028}', '\U{2029}', '\U{202F}', '\U{205F}', '\U{3000}', '\U{FEFF}'
  }

  predicate IsWhitespace(c: char) {
    c in WhitespaceChars
  }

  /** The regular-expression class `\d`: ASCII digits only. */
  predicate IsDigit(c: char) {
    '0' <= c <= '9'
  }

  predicate IsAsciiLetter(c: char) {
    ('a' <= c <= 'z') || ('A' <= c <= 'Z')
  }

  /** The class `[a-zA-Z0-9]`. */
  predicate IsAsciiAlnum(c: char) {
    IsAsciiLetter(c) || IsDigit(c)
  }

  predicate AllDigits(s: string) {
    forall i :: 0 <= i < |s| ==> IsDigit(s[i])
  }

  /* ---------------------------------------------------------------- trim */

  /** Drops leading white space. */
  function TrimStart(s: string): (r: string)
    ensures |r| <= |s| && r == s[|s| - |r|..]
    ensures forall i :: 0 <= i < |s| - |r| ==> IsWhitespace(s[i])
    ensures |r| > 0 ==> !IsWhitespace(r[0])
  {
    if |s| > 0 && IsWhitespace(s[0]) then TrimStart(s[1..]) else s
  }

  /** Drops trailing white space. */
  function TrimEnd(s: string): (r: string)
    ensures |r| <= |s| && r == s[..|r|]
    ensures forall i :: |r| <= i < |s| ==> IsWhitespace(s[i])
    ensures |r| > 0 ==> !IsWhitespace(r[|r| - 1])
  {
    if |s| > 0 && IsWhitespace(s[|s| - 1]) then TrimEnd(s[..|s| - 1]) else s
  }

  /** `r` is `s` with `lead` white-space characters removed in front and all
      remaining trailing white space removed behind; `r` itself neither starts
      nor ends with white space. */
  predicate TrimmedAt(r: string, s: string, lead: nat) {
    && lead + |r| <= |s|
    && r == s[lead..lead + |r|]
    && (forall i :: 0 <= i < lead ==> IsWhitespace(s[i]))
    && (forall i :: lead + |r| <= i < |s| ==> IsWhitespace(s[i]))
    && (|r| > 0 ==> !IsWhitespace(r[0]) && !IsWhitespace(r[|r| - 1]))
  }

  lemma SliceOfSuffix(s: string, lead: nat, n: nat)
    requires lead + n <= |s|
    ensures s[lead..][..n] == s[lead..lead + n]
  {
  }

  /** A string that `trim` leaves alone. */
  predicate IsTrimmed(s: string) {
    |s| > 0 ==> !IsWhitespace(s[0]) && !IsWhitespace(s[|s| - 1])
  }

  /** `String.prototype.trim`. */
  function Trim(s: string): (r: string)
    ensures exists lead: nat :: TrimmedAt(r, s, lead)
    ensures IsTrimmed(r)
  {
    var t := TrimStart(s);
    var r := TrimEnd(t);
    TrimBothEnds(s, t, r);
    r
  }

  /** Cutting white space off the front of `s`, giving `t`, and then off the
      back of `t`, giving `r`, cuts exactly white space at both ends of `s`. */
  lemma TrimBothEnds(s: string, t: string, r: string)
    requires |t| <= |s| && t == s[|s| - |t|..]
    requires forall i :: 0 <= i < |s| - |t| ==> IsWhitespace(s[i])
    requires |t| > 0 ==> !IsWhitespace(t[0])
    requires |r| <= |t| && r == t[..|r|]
    requires forall i :: |r| <= i < |t| ==> IsWhitespace(t[i])
    requires |r| > 0 ==> !IsWhitespace(r[|r| - 1])
    ensures TrimmedAt(r, s, |s| - |t|)
  {
    var lead := |s| - |t|;
    SliceOfSuffix(s, lead, |r|);
    forall i | lead + |r| <= i < |s|
      ensures IsWhitespace(s[i])
    {
      assert s[i] == t[i - lead];
    }
  }

  /** The trimmed form is unique: whatever offset is used, a string that
      satisfies `TrimmedAt` is the one `Trim` computes. */
  lemma TrimmedAtIsTrim(r: string, s: string, lead: nat)
    requires TrimmedAt(r, s, lead)
    ensures r == Trim(s)
  {
    var t := Trim(s);
    var lead': nat :| TrimmedAt(t, s, lead');
    TrimmedAtUnique(s, r, lead, t, lead');
  }

  lemma TrimmedAtUnique(s: string, a: string, la: nat, b: string, lb: nat)
    requires TrimmedAt(a, s, la) && TrimmedAt(b, s, lb)
    ensures a == b
  {
    if |a| > 0 {
      assert s[la] == a[0] && s[la + |a| - 1] == a[|a| - 1];
    }
    if |b| > 0 {
      assert s[lb] == b[0] && s[lb + |b| - 1] == b[|b| - 1];
    }
    assert |a| > 0 ==> la == lb && |a| == |b|;
    assert |b| > 0 ==> la == lb && |a| == |b|;
  }

  /* ----------------------------------------------------- lower-casing */

  /** ASCII lower-casing of one character. JavaScript's `toLowerCase` is the
      full Unicode mapping; the only test it feeds looks for an all-ASCII
      lower-case pattern, and no character outside `A`..`Z` lower-cases to a
      sequence holding `t`, `e`, `s`, `u`, `r` or a space, so the ASCII
      mapping decides that test identically. */
  function LowerChar(c: char): (d: char)
    ensures IsAsciiLetter(c) ==> IsAsciiLetter(d) && 'a' <= d <= 'z'
    ensures !('A' <= c <= 'Z') ==> d == c
  {
    if 'A' <= c <= 'Z' then (c as int + 32) as char else c
  }

  /** `String.prototype.toLowerCase`, restricted as described at `LowerChar`. */
  function ToLower(s: string): (r: string)
    ensures |r| == |s|
    ensures forall i :: 0 <= i < |s| ==> r[i] == LowerChar(s[i])
  {
    if |s| == 0 then "" else [LowerChar(s[0])] + ToLower(s[1..])
  }

  /* ---------------------------------------------------- substring search */

  /** `pat` occurs in `s` starting at index `i`. */
  predicate OccursAt(s: string, i: int, pat: string) {
    0 <= i && i + |pat| <= |s| && s[i..i + |pat|] == pat
  }

  /** `String.prototype.includes`. */
  predicate Contains(s: string, pat: string)
    decreases |s|
  {
    |pat| <= |s| && (s[..|pat|] == pat || Contains(s[1..], pat))
  }

  /** `Contains` holds exactly when the pattern occurs at some index. */
  lemma {:induction false} ContainsOccurs(s: string, pat: string)
    ensures Contains(s, pat) <==> exists i :: OccursAt(s, i, pat)
    decreases |s|
  {
    if |pat| == 0 {
      assert OccursAt(s, 0, pat);
    } else if |pat| <= |s| {
      ContainsOccurs(s[1..], pat);
      if s[..|pat|] == pat {
        assert OccursAt(s, 0, pat);
      }
      if exists i :: OccursAt(s[1..], i, pat) {
        var i :| OccursAt(s[1..], i, pat);
        assert s[i + 1..i + 1 + |pat|] == s[1..][i..i + |pat|];
        assert OccursAt(s, i + 1, pat);
      }
      if exists i :: OccursAt(s, i, pat) {
        var i :| OccursAt(s, i, pat);
        if i > 0 {
          assert s[1..][i - 1..i - 1 + |pat|] == s[i..i + |pat|];
          assert OccursAt(s[1..], i - 1, pat);
        } else {
          assert s[..|pat|] == s[0..|pat|];
        }
      }
    } else {
      assert forall i :: !OccursAt(s, i, pat);
    }
  }

  /* ------------------------------------------------------ UTF-16 length */

  /** Number of UTF-16 code units that encode `c`. */
  function Utf16Units(c: char): nat {
    if c as int > 0xFFFF then 2 else 1
  }

  /** JavaScript's `length` of the string `s`. */
  function Utf16Length(s: string): (n: nat)
    ensures |s| <= n <= 2 * |s|
  {
    if |s| == 0 then 0 else Utf16Units(s[0]) + Utf16Length(s[1..])
  }

  /** The code-unit count adds up over concatenation ... */
  lemma {:induction false} Utf16LengthAppend(a: string, b: string)
    ensures Utf16Length(a + b) == Utf16Length(a) + Utf16Length(b)
    decreases |a|
  {
    if |a| == 0 {
      assert a + b == b;
    } else {
      assert (a + b)[0] == a[0] && (a + b)[1..] == a[1..] + b;
      Utf16LengthAppend(a[1..], b);
    }
  }

  /** ... and one character counts as a surrogate pair, two units, exactly
      when it lies above U+FFFF, and as one unit otherwise. */
  lemma Utf16LengthChar(c: char)
    ensures c as int > 0xFFFF ==> Utf16Length([c]) == 2
    ensures c as int <= 0xFFFF ==> Utf16Length([c]) == 1
  {
    assert [c][1..] == "";
  }

  /** Without characters above U+FFFF the count is the number of characters. */
  lemma {:induction false} Utf16LengthBmp(s: string)
    requires forall i :: 0 <= i < |s| ==> s[i] as int <= 0xFFFF
    ensures Utf16Length(s) == |s|
    decreases |s|
  {
    if |s| > 0 {
      Utf16LengthBmp(s[1..]);
    }
  }

  /* ------------------------------------------------ lexicographic order */

  /** Strict lexicographic order by code point; the model's stand-in for
      the locale-aware string comparison. */
  predicate Less(a: string, b: string) {
    if |a| == 0 then |b| > 0
    else if |b| == 0 then false
    else if a[0] != b[0] then a[0] < b[0]
    else Less(a[1..], b[1..])
  }

  lemma {:induction false} LessIrreflexive(a: string)
    ensures !Less(a, a)
  {
    if |a| > 0 {
      LessIrreflexive(a[1..]);
    }
  }

  lemma {:induction false} LessAsymmetric(a: string, b: string)
    ensures Less(a, b) ==> !Less(b, a)
  {
    if |a| > 0 && |b| > 0 && a[0] == b[0] {
      LessAsymmetric(a[1..], b[1..]);
    }
  }

  lemma {:induction false} LessTransitive(a: string, b: string, c: string)
    requires Less(a, b) && Less(b, c)
    ensures Less(a, c)
  {
    if |a| > 0 && a[0] == b[0] && b[0] == c[0] {
      LessTransitive(a[1..], b[1..], c[1..]);
    }
  }

  lemma {:induction false} LessTotal(a: string, b: string)
    ensures a == b || Less(a, b) || Less(b, a)
  {
    if |a| > 0 && |b| > 0 && a[0] == b[0] {
      LessTotal(a[1..], b[1..]);
      if a[1..] == b[1..] {
        assert a == [a[0]] + a[1..] && b == [b[0]] + b[1..];
      }
    }
  }

  /** "Not greater than" is transitive; it is the order a sorted roster keeps. */
  lemma NotLessTransitive(a: string, b: string, c: string)
    requires !Less(b, a) && !Less(c, b)
    ensures !Less(c, a)
  {
    if Less(c, a) {
      LessTotal(a, b);
      LessTotal(b, c);
      if Less(a, b) {
        LessTransitive(c, a, b);
      } else if Less(b, c) {
        LessTransitive(b, c, a);
      }
    }
  }
}
